=== FILE: README.md ===
# qstring encoder, modelled in Dafny

A model of the encoding half of `qstring`, a Go library that converts between URL
query parameters (`url.Values`, a map from key to an ordered list of strings) and
Go structs. The model covers:

- the comparative values `ComparativeTime` and `ComparativeString`: a payload
  preceded by a relational operator (`=`, `>`, `>=`, `<`, `<=`, `~`, `!`), with the
  operator lexer `parseOperator`, their `Parse` methods and their `String` methods;
- the two struct-tag parsers: the two-result `parseTag` of `tags.go`, which the
  encoder calls, and the three-result `parseTag` of `utils.go`;
- the emptiness predicate `isEmptyValue` behind the `omitempty` option;
- the encoder `Marshal`: the input guard and its `InvalidMarshalError` messages, the
  whole-record `Marshaller` bypass, key resolution, the three skip rules, the
  `TextMarshaler`/`Stringer` precedence, slice projection, dotted-key flattening of
  nested structs, and the base-10/boolean scalar texts.

Go's reflection is replaced by explicit data (`Reflect` module): a struct is a
`Record` holding its fields in declaration order and the methods its type declares
(`MarshalText`, `String`, `MarshalQuery`, each with what it returns for that
record). A `Field` carries its name, its `qstring` tag text, whether it can be set,
and its `Value`, a closed union of the kinds the encoder distinguishes. Encoding is a
pure function from a `Record` to `map<string, seq<string>>`.

Modules: `Wrappers` (Option, Result), `Strings` (Go's `strings.Index`, `Split`,
`HasPrefix`, `ToLower`), `Strconv` (base-10 and boolean formatting with the parsers
that invert them), `Times` (time values and the RFC 3339 codec), `Fields`
(fields.go), `Tags` (tags.go), `Reflect` (the value model), `Utils` (utils.go),
`Encode` (encode.go) and `EncodeProps` (lemmas about the encoder).

Go methods with pointer receivers that mutate the receiver (`Parse`) are modelled as
functions from the receiver and the input to `Parsed(value, err)`: the receiver after
the call and the error returned. This keeps visible that `ComparativeString.Parse`
overwrites `Operator` before it rejects an operator, and that
`ComparativeTime.Parse` leaves the receiver untouched on a short query.

RFC 3339 parsing and formatting (section 5.6 of RFC 3339, `date-time`) stay
uninterpreted: they are the three function-valued fields of `Times.Rfc3339`
(`time.Parse(time.RFC3339, .)`, `Time.Format(time.RFC3339)` and
`Time.MarshalText`). The round trip `parse(format(t)) == t` is not assumed globally;
the lemmas that need it take it as a hypothesis about the one time they print
(`Times.RoundTrips`), together with the fact that this time's text starts with a digit
of its year (`Times.FormatsDateTime`). RFC 3339's `date-time` begins with the four
digits of `date-fullyear`, and Go writes every year from 0 on that way; a negative
year is written with a leading minus sign, and such a time is not covered.

Where the code and its tests disagree, the model follows the code:
`InvalidMarshalError.Error` produces `qstring: MarshalString(...)` messages, while
encode_test.go:142-144 expects `qstring: Marshal(...)`.

## Model

| member | source | states |
|---|---|---|
| Fields.ParseOperator | fields.go:21-51 | The result is one of the seven operators; any result other than `=` is a prefix of the input; `=` is returned exactly when the first character is none of `<`, `>`, `~`, `!`; the result is the longest explicit operator prefixing the input. Needs a non-empty input, since the code reads `s[0]`. |
| Fields.ParseOperatorTwoChar | fields.go:23-42 | `<=`/`>=` are returned exactly when the second character is `=`; a lone `<` or `>`, or one followed by anything else, gives `<` or `>`. |
| Fields.OperatorThenPayload | fields.go:21-51 | Any of the seven operators written in front of a payload that starts with neither an operator character nor `=` lexes back to that operator, and the time parser is handed exactly the payload. |
| Fields.NewComparativeTime | fields.go:65-69 | A fresh comparative time has operator `=` and exactly Go's `time.Time{}` (`Times.Zero`), not merely some time that reports zero. |
| Fields.Message | fields.go:72-108 | The error text of each parse failure: the short-timestamp, short-string and bad-operator errors all start with `qstring: `, and a time-parse error is passed through unchanged. |
| Fields.MessagesDistinct | fields.go:72-108 | The three fixed error texts differ from one another, so a caller can tell the failures apart by text. |
| Fields.TimePayload | fields.go:79-85 | The text handed to the time parser is the query with its operator removed when the query starts with it, and the whole query otherwise. |
| Fields.ParseComparativeTime | fields.go:71-91 | A query of at most two characters fails with "qstring: Invalid Timestamp Query" and leaves the receiver unchanged (so a fresh value keeps `=`); otherwise the operator becomes the lexed one and the time is what the RFC 3339 parser makes of the payload, or exactly `time.Time{}` (`Times.Zero`) with the parser's error; `Message` renders the short-query error as the text above. |
| Fields.ComparativeTimeRoundTrip | fields.go:71-97 | Parsing the `String()` text of a comparative time with any of the seven operators gives it back without error, provided its time's RFC 3339 text starts with a year digit and reads back to that time. |
| Fields.ComparativeTimeString | fields.go:95-97 | `String()`: the operator followed by the RFC 3339 text of the time. Partners: `ComparativeTimeRoundTrip`, `ComparativeTimeReprint`. |
| Fields.ComparativeTimeReprint | fields.go:71-97 | For a query whose timestamp text is canonical, `String()` after `Parse` gives the query back, with an explicit `=` put in front when the query had no operator. |
| Fields.ParseComparativeString | fields.go:99-126 | A query of at most two characters fails with "qstring: Invalid Query" and leaves the receiver unchanged; a rejected operator is still stored in `Operator` before "Invalid operator" is returned, with `Str` untouched; `Message` renders these two errors as the texts above, the second naming `*qstring.ComparativeString`. |
| Fields.ComparativeStringAccepts | fields.go:100-126 | A query is accepted exactly when it is longer than two characters and does not start with `<` or `>`; `~x` gives `(~, x)`, `!x` gives `(!, x)`, anything else (including a leading `=`) gives `("", query)`. |
| Fields.ComparativeStringReprint | fields.go:100-131 | For every accepted query, `String()` after `Parse` is the query itself. |
| Fields.ComparativeStringString | fields.go:130-132 | `String()`: the operator followed by the string. Partners: `ComparativeStringReprint`, `ComparativeStringRoundTrip`. |
| Fields.ComparativeStringRoundTrip | fields.go:100-131 | Parsing the `String()` text of a comparative string with operator `""`, `~` or `!` gives it back, when the text is long enough and an equality's payload does not start with an operator character. |
| Tags.ParseTag | tags.go:10-18 | Without a comma the tag is the name and omitempty is false; otherwise the name is the text before the first comma, and omitempty holds exactly when the rest after that comma is `omitempty`. The name never contains a comma and prefixes the tag. |
| Tags.ParseTagNameStable | tags.go:10-18 | Parsing the returned name again gives `(name, false)`. |
| Tags.ParseTagOmitEmptyForm | tags.go:10-18 | `name,omitempty` parses to `(name, true)` and `name,` to `(name, false)` for every comma-free name. |
| Utils.EmptyIsZero | utils.go:10-23 | Strings, slices and maps are empty exactly at length zero, booleans at false, integers at zero, pointers and interfaces at nil: in each case exactly the zero value of the kind. |
| Utils.IsEmptyValue | utils.go:10-33 | Measured against Go's zero value of each kind (`Utils.IsGoZero`): strings, slices, maps, booleans, integers, interfaces and pointers are empty exactly at their zero value; an array is empty exactly when it has no elements; anything empty is a zero value unless it is a time or a comparative time, so a comparative string or the invalid value (`reflect.ValueOf(nil)`) that is not a zero value is never empty; a zero time or comparative time is empty. Partners: `EmptyIsZero`, `EmptyDepartsFromZero`, `EmptyTimes`. |
| Utils.EmptyDepartsFromZero | utils.go:10-33 | Where emptiness is not the zero value: an array of zeros, every struct that is a zero value (a struct with no fields is one) and a zero comparative string are never empty, while a zero instant in a non-UTC zone and a comparative time `=` at the zero instant are empty without being zero values. |
| Utils.EmptyTimes | utils.go:24-30 | A time is empty exactly when it is the zero instant; a comparative time exactly when its time is, whatever its operator; a fresh comparative time is empty. |
| Utils.ParseTagOptions | utils.go:38-54 | Without a comma the result is `(tag, false, false)`; otherwise the name is the text before the first comma, comma-free and a prefix of the tag. |
| Utils.ParseTagOptionsOfJoin | utils.go:38-54 | A tag written as a name and comma-separated options parses to the name, with omitempty and comma set exactly when those options occur among the options. |
| Utils.ParseTagOptionsOrderFree | utils.go:44-53 | Reordering the options does not change the result. |
| Utils.ParseTagsAgree | utils.go:38-54 | The two tag parsers always agree on the name; the two-result parser's omitempty implies the three-result one's; they agree on omitempty whenever the tag has at most one comma. |
| Utils.ParseTagsDisagree | utils.go:38-54 | On `name,omitempty,comma` the two-result parser reports no omitempty while the three-result parser reports both options. |
| Encode.InvalidMarshalMessage | encode.go:42-51 | Every message starts with `qstring: MarshalString(` and ends with `)`; an untyped nil is reported as `qstring: MarshalString(nil)`, a non-pointer is reported as `non-pointer <type>`, a nil pointer as `nil <type>`. |
| Encode.InvalidMarshalMessagesDistinct | encode.go:42-51 | The untyped-nil, non-pointer and nil-pointer messages differ from each other for every type name. |
| Encode.Marshal | encode.go:20-24 | Anything but a non-nil pointer yields an InvalidMarshalError carrying the input's type and no values; a Marshaller's result is returned unchanged; any other non-nil pointer to a struct is encoded by `MarshalRecord`, the field walk whose keys and values `EncodeProps.MarshalRecordLastWriterWins` fixes, with no error. |
| Encode.MarshalRecord | encode.go:62-74 | A struct whose pointer is a Marshaller is encoded by its `MarshalQuery` alone, without walking its fields; the field walk itself never reports an error. |
| Encode.CompatibleInterfaceValue | encode.go:129-138 | A `time.Time` is written through `MarshalText`; a comparative time or string through its `String()`; a struct, or a non-nil pointer to one, through its `MarshalText` text, else its `String` text. Plain scalars, slices, arrays, maps and interfaces have no text method. A nil pointer is given none either, a modelling choice (see "Left out"). |
| Encode.MarshalValue | encode.go:140-167 | Strings are written verbatim, booleans as `true`/`false`, integers as canonical base-10 numerals (no leading zero, no `-0`) that read back to the same integer, which by `Strconv.CanonicalIsFormatInt` fixes the text exactly; times through `MarshalText`, comparative values through `String()`; slices, arrays, maps and interfaces as the empty text; a struct, or a non-nil pointer to one, as its `MarshalText`/`String()` text when it has one, else the empty text. |
| Encode.MarshalSlice | encode.go:121-127 | One text per element, as many as elements, in the same order. |
| Encode.ResolveKey | encode.go:89-93 | The key is the tag's name part, as written, when there is one (so it is comma-free and prefixes the tag), otherwise the field name lower-cased character by character. Partners: `EncodeProps.TaggedKey`, `EncodeProps.DefaultKeyIsLowerCase`. |
| Encode.Skipped | encode.go:95-99 | The three skip rules, unsettable, keyed `-`, or omitempty with an empty value. Partners: `EncodeProps.SkipRules`, `EncodeProps.SkippedFieldWritesNothing`, `Encode.FieldEntries`. |
| Encode.Flatten | encode.go:183-188 | The flattened keys are exactly the nested keys put under the parent key after a dot, each with its list unchanged. |
| Encode.Nested | encode.go:169-191 | A nested struct's entries never include the parent key itself and all lie under `key.`; an error from the nested Marshal drops them all; otherwise they are the flattened nested encoding. |
| Encode.Walk | encode.go:84-118 | The field loop: each field's entries set over the output so far, in declaration order. Partners: `EncodeProps.WalkIsFold` (it equals a left-to-right override of the fields' entries) and `EncodeProps.WalkWriters`. |
| Encode.FieldEntries | encode.go:85-117 | A skipped field writes nothing; every key a field writes is its resolved key or lies under it after a dot. |
| EncodeProps.WalkWriters | encode.go:84-118 | Over the field loop, a key ends up in the output exactly when it was there or some later field writes it, and it holds the list of the last field that writes it. |
| EncodeProps.MarshalRecordLastWriterWins | encode.go:79-118 | A key is in a struct's encoding exactly when some field writes it, and a later field writing the same key replaces an earlier one. |
| EncodeProps.MarshalRecordKeysResolve | encode.go:85-117 | Every key of a struct's encoding is the key of a field that is not skipped, or lies under that key after a dot. |
| EncodeProps.SkippedFieldWritesNothing | encode.go:97-99 | A skipped field leaves the output of the loop unchanged. |
| EncodeProps.SkipRules | encode.go:95-99 | A field that cannot be set, one keyed `-`, and one with omitempty holding an empty value each write nothing. |
| EncodeProps.TextMethodsFirst | encode.go:101-105 | A field whose type has a text method is written as that single text, before any dispatch on its kind. |
| EncodeProps.TextMarshalerBeforeStringer | encode.go:129-136 | When a type has both, `MarshalText` wins over `String`, for a struct and for a pointer to it. |
| EncodeProps.SliceField | encode.go:108-109 | A slice field writes exactly its key, with a list as long as the slice whose element i is the text of element i; an empty slice writes its key with an empty list. |
| EncodeProps.NestedField | encode.go:110-113 | A nested struct field, by value or through a pointer, without text methods is flattened: each nested key `k` appears as `key.k` with the same list, every written key has that form, the bare key never appears, and a nested error drops the whole nested encoding. |
| EncodeProps.ScalarField | encode.go:114-116 | A string, boolean, integer, array, map or interface field writes its single text under its key; for an array, a map or an interface that text is empty. |
| EncodeProps.OmitEmptyKeepsStructs | encode.go:95-99 | A settable nested struct field not keyed `-` is never skipped, omitempty or not, even when all its fields hold zero values. |
| EncodeProps.OmitEmptyExample | encode.go:89-99 | A field tagged `<name>,omitempty` holding 0 is left out; holding 5 it is written as `<name>=5`. |
| EncodeProps.DefaultKeyIsLowerCase | encode.go:90-93 | An untagged field is keyed by its lower-cased name. |
| EncodeProps.TaggedKey | encode.go:89-93 | A field whose tag is a comma-free name, alone or followed by a comma and options, is keyed by that name exactly as written. |
| Strconv.DecimalValueFormatUint | encode.go:151-152 | The base-10 text of an unsigned integer reads back to that integer. |
| Strconv.ParseFormatInt | encode.go:149-150 | The base-10 text of a signed integer, with its minus sign, reads back to that integer and is canonical. |
| Strconv.CanonicalIsFormatUint | encode.go:151-152 | A decimal numeral without a leading zero is the one FormatUint writes for its value. |
| Strconv.CanonicalIsFormatInt | encode.go:149-150 | A canonical signed numeral is the one FormatInt writes for its value, so FormatInt's text is the only canonical numeral reading back to the integer. |

## Left out

- Decoding (`Unmarshal`): its implementation, decode.go, is not part of this model.
- `MarshalString`'s `vals.Encode()` (percent-encoding and `&`-joining by `net/url`): the model stops at the `url.Values` map.
- Floating-point fields: `strconv.FormatFloat` (encode.go:153-154) and float emptiness (utils.go:20-21) are floating-point behaviour of Go's runtime.
- RFC 3339 parsing and formatting and `Time.MarshalText`: uninterpreted functions, see above. `time.Parse` returns the zero time on failure, so a failed `ComparativeTime.Parse` stores the zero time.
- Integer widths: `Int` and `Uint` are unbounded, and a field's value is assumed to lie within its Go width; the base-10 text of an in-range value does not depend on the width.
- `strings.ToLower` is modelled for ASCII letters only; other characters of a field name are kept as they are.
- Go strings are byte strings; the model treats each character as one byte (all operators, commas and dots are ASCII).
- Encode.CompatibleInterfaceValue: text methods on types other than structs are not modelled. `compatibleInterfaceValue` (encode.go:129-138) asks every field's type for `MarshalText` and `String`, so a named integer, string, slice or map type with such a method (a `type Level int` with a `String` method, `net.IP`) is written through it. The model gives methods to records only and writes every other kind by its kind; `Encode.CompatibleInterfaceValue`'s clause that plain scalars, slices, arrays, maps and interfaces have no text method holds of unnamed types only. Go also asks the type, not the value (encode.go:130, 134), so a nil `*T` whose `T` has `MarshalText` or `String` has a text method, which Go calls; the model gives `Ptr(None)` no text. This is harmless because `Marshal` requires every nil pointer to sit in a skipped field.
- `uintptr` fields: `marshalValue`'s unsigned case (encode.go:151) does not list `reflect.Uintptr`, so Go writes the empty text for such a field, while the model's `Uint` is written in base 10; `Uint` stands for the other unsigned widths only.
- Receiver kinds: a method is taken to be present on both a struct and a pointer to it, as for value-receiver methods.
- Nil pointers reached by the encoder: Go panics. `reflect.Indirect` of a nil pointer field (encode.go:111) returns the zero `reflect.Value`, and `marshalStruct` then panics calling `Interface()` on it (encode.go:171); a text method called through a nil pointer may panic too. `Marshal` requires `RecordSafe` instead: every nil pointer and invalid value sits in a skipped field (for instance a nil pointer with omitempty). A non-nil pointer to a non-struct, which also panics, is not a possible `Input`.
- Slices are modelled with elements of any kind; a nil pointer inside a slice is excluded, as it may panic.
- The `time.Time`/`ComparativeTime` case of `marshalStruct` (encode.go:172-173) and the struct cases of `marshalValue` (encode.go:155-164) are never reached: both types have text methods, which `compatibleInterfaceValue` uses first.
- The `Tag` constant naming the struct tag (`qstring`) lives in decode.go, which is not part of this model; a field's tag text is given directly.
- Contents of maps are not modelled, only their number of entries (all that `isEmptyValue` reads; the encoder writes a map field as the empty text).
- Benchmarks (bench_test.go) and the printed output of the documentation examples (doc_test.go).

=== FILE: encode.dfy ===
/** The encoder (encode.go): Marshal walks a record's fields in declaration order and
    writes each one's text under its resolved key into a url.Values map. */
module Encode {
  import opened Wrappers
  import opened Strings
  import opened Strconv
  import opened Times
  import opened Fields
  import opened Tags
  import opened Reflect
  import opened Utils

  /** What is handed to Marshal: an untyped nil, a value that is not a pointer, a nil
      pointer, or a pointer to a struct. Types are given by their printed names. */
  datatype Input =
    | Untyped
    | NonPointer(typeName: string)
    | NilPointer(typeName: string)
    | Pointer(rec: Record)

  const MessagePrefix: string := "qstring: MarshalString("

  /** InvalidMarshalError.Error: one message per failure, naming the type when it is known. */
  function InvalidMarshalMessage(typ: Option<GoType>): (msg: string)
    ensures HasPrefix(msg, MessagePrefix) && msg[|msg| - 1] == ')'
    ensures typ.None? ==> msg == MessagePrefix + "nil)"
    ensures typ.Some? && !typ.value.isPointer ==> msg == MessagePrefix + "non-pointer " + typ.value.name + ")"
    ensures typ.Some? && typ.value.isPointer ==> msg == MessagePrefix + "nil " + typ.value.name + ")"
  {
    match typ
    case None => "qstring: MarshalString(nil)"
    case Some(t) =>
      if !t.isPointer then "qstring: MarshalString(non-pointer " + t.name + ")"
      else "qstring: MarshalString(nil " + t.name + ")"
  }

  /** The three kinds of invalid input are told apart by their messages. */
  lemma InvalidMarshalMessagesDistinct(a: string, b: string)
    ensures InvalidMarshalMessage(None) != InvalidMarshalMessage(Some(GoType(a, false)))
    ensures InvalidMarshalMessage(None) != InvalidMarshalMessage(Some(GoType(b, true)))
    ensures InvalidMarshalMessage(Some(GoType(a, false))) != InvalidMarshalMessage(Some(GoType(b, true)))
  {
  }

  /** The text a field's type produces through encoding.TextMarshaler or, failing that,
      fmt.Stringer. */
  function TextOf(m: Methods): Option<string> {
    if m.marshalText.Some? then m.marshalText else m.stringer
  }

  /** compatibleInterfaceValue: the text of a value whose type implements
      encoding.TextMarshaler (time.Time, through MarshalText) or fmt.Stringer
      (ComparativeTime, ComparativeString), TextMarshaler first. */
  function CompatibleInterfaceValue(v: Value, rfc: Rfc3339): (text: Option<string>)
    ensures v.Str? || v.Bool? || v.Int? || v.Uint? || v.Slice? || v.Array? || v.Dict? || v.Iface? ==> text == None
    ensures v.TimeVal? ==> text == Some(rfc.marshalText(v.t))
    ensures v.CompTime? ==> text == Some(ComparativeTimeString(v.ct, rfc))
    ensures v.CompStr? ==> text == Some(ComparativeStringString(v.cs))
    ensures v.Struct? ==> text == TextOf(v.rec.methods)
    ensures v.Ptr? && v.target.Some? ==> text == TextOf(v.target.value.methods)
    ensures v.Ptr? && v.target.None? ==> text == None
  {
    match v
    case TimeVal(t) => Some(rfc.marshalText(t))
    case CompTime(c) => Some(ComparativeTimeString(c, rfc))
    case CompStr(c) => Some(ComparativeStringString(c))
    case Struct(r) => TextOf(r.methods)
    case Ptr(Some(r)) => TextOf(r.methods)
    case _ => None
  }

  /** marshalValue (integers and booleans through strconv; floats are not modelled):
      strings verbatim, booleans as "true"/"false", integers in base 10 that read back
      to the same integer, times through their text methods, anything else empty. */
  function MarshalValue(v: Value, rfc: Rfc3339): (text: string)
    ensures v.Str? ==> text == v.s
    ensures v.Bool? ==> (text == "true" <==> v.b) && (text == "false" <==> !v.b)
    ensures v.Int? ==> IsIntNumeral(text) && ParseInt(text) == v.i
    ensures v.Int? ==> IsCanonicalInt(text)
    ensures v.Uint? ==> AllDigits(text) && |text| > 0 && DecimalValue(text) == v.u
    ensures v.Uint? ==> IsCanonical(text)
    ensures v.TimeVal? ==> text == rfc.marshalText(v.t)
    ensures v.CompTime? ==> text == ComparativeTimeString(v.ct, rfc)
    ensures v.CompStr? ==> text == ComparativeStringString(v.cs)
    ensures v.Slice? || v.Array? || v.Dict? || v.Iface? ==> text == ""
    ensures v.Struct? ==> text == (if TextOf(v.rec.methods).Some? then TextOf(v.rec.methods).value else "")
    ensures v.Ptr? ==>
      text == (if v.target.Some? && TextOf(v.target.value.methods).Some? then TextOf(v.target.value.methods).value else "")
  {
    match CompatibleInterfaceValue(v, rfc)
    case Some(t) => t
    case None =>
      match v
      case Str(s) => s
      case Bool(b) => FormatBool(b)
      case Int(i) => ParseFormatInt(i); FormatInt(i)
      case Uint(u) => DecimalValueFormatUint(u); FormatUint(u)
      case _ => ""
  }

  /** marshalSlice: one text per element, in order. */
  function MarshalSlice(elems: seq<Value>, rfc: Rfc3339): (texts: seq<string>)
    ensures |texts| == |elems|
    ensures forall i :: 0 <= i < |elems| ==> texts[i] == MarshalValue(elems[i], rfc)
  {
    if |elems| == 0 then []
    else MarshalSlice(elems[..|elems| - 1], rfc) + [MarshalValue(elems[|elems| - 1], rfc)]
  }

  /** The key of a field: the name part of its tag, or its lower-cased field name when
      the tag gives none. */
  function ResolveKey(f: Field): (key: string)
    ensures ParseTag(f.tag).name != "" ==> key == ParseTag(f.tag).name
    ensures ParseTag(f.tag).name != "" ==> ',' !in key && HasPrefix(f.tag, key) && key != ""
    ensures ParseTag(f.tag).name == "" ==> |key| == |f.name| && forall i :: 0 <= i < |key| ==> key[i] == LowerChar(f.name[i])
  {
    var name := ParseTag(f.tag).name;
    if name == "" then ToLower(f.name) else name
  }

  /** The three skip rules: unsettable, tagged "-", or omitempty and empty. */
  predicate Skipped(f: Field) {
    !f.settable || ResolveKey(f) == "-" || (ParseTag(f.tag).omitEmpty && IsEmptyValue(f.value))
  }

  /** A nested key under `key`: joined with a dot, unless the key is empty. */
  function Prefixed(key: string, k: string): string {
    if key != "" then key + "." + k else k
  }

  lemma PrefixedInjective(key: string)
    ensures forall k, k' :: Prefixed(key, k) == Prefixed(key, k') ==> k == k'
  {
    forall k, k' | Prefixed(key, k) == Prefixed(key, k') ensures k == k' {
      if key != "" {
        assert Prefixed(key, k)[|key| + 1..] == k;
        assert Prefixed(key, k')[|key| + 1..] == k';
      }
    }
  }

  /** The loop of marshalStruct that copies a nested encoding into the output: every
      nested key re-keyed under `key`, with its list unchanged. */
  function Flatten(key: string, vals: Query): (m: Query)
    ensures m.Keys == set k | k in vals :: Prefixed(key, k)
    ensures forall k :: k in vals ==> m[Prefixed(key, k)] == vals[k]
  {
    PrefixedInjective(key);
    map k | k in vals :: Prefixed(key, k) := vals[k]
  }

  // Go panics when the walk reaches a nil pointer: reflect.Indirect of a nil pointer
  // field, or a text method called through a nil pointer. The predicates below say
  // that no nil pointer is reached, which Marshal demands of its callers.

  predicate ElementSafe(e: Value) {
    !(e.Ptr? && e.target.None?) && !e.Invalid?
  }

  predicate ValueSafe(v: Value) {
    match v
    case Ptr(None) => false
    case Invalid => false
    case Slice(es) => forall i :: 0 <= i < |es| ==> ElementSafe(es[i])
    case Struct(r) => TextOf(r.methods).Some? || RecordSafe(r)
    case Ptr(Some(r)) => TextOf(r.methods).Some? || RecordSafe(r)
    case _ => true
  }

  predicate FieldSafe(f: Field) {
    Skipped(f) || ValueSafe(f.value)
  }

  predicate FieldsSafe(fs: seq<Field>) {
    forall i :: 0 <= i < |fs| ==> FieldSafe(fs[i])
  }

  predicate RecordSafe(r: Record) {
    r.methods.marshalQuery.Some? || FieldsSafe(r.fields)
  }

  /** Marshal applied to a nested struct through its address, then marshalStruct's merge:
      an error drops the nested encoding, otherwise every nested key is flattened. */
  function Nested(key: string, r: Record, rfc: Rfc3339): (m: Query)
    requires RecordSafe(r)
    ensures key != "" ==> key !in m
    ensures key != "" ==> forall k :: k in m ==> HasPrefix(k, key + ".")
    ensures MarshalRecord(r, rfc).err.Some? ==> m == map[]
    ensures MarshalRecord(r, rfc).err.None? ==> m == Flatten(key, MarshalRecord(r, rfc).values)
    decreases r, 3
  {
    var inner := MarshalRecord(r, rfc);
    if inner.err.Some? then map[] else Flatten(key, inner.values)
  }

  /** The entries one field writes into the output: none when it is skipped; its text
      when its type has a text method; its per-element texts for a slice; the flattened
      encoding of a nested struct; otherwise the single text of its value. */
  function FieldEntries(f: Field, rfc: Rfc3339): (m: Query)
    requires FieldSafe(f)
    ensures Skipped(f) ==> m == map[]
    ensures ResolveKey(f) != "" ==> forall k :: k in m ==> k == ResolveKey(f) || HasPrefix(k, ResolveKey(f) + ".")
    decreases f, 0
  {
    var key := ResolveKey(f);
    if Skipped(f) then map[]
    else
      assert ValueSafe(f.value);
      match CompatibleInterfaceValue(f.value, rfc)
      case Some(text) => map[key := [text]]
      case None =>
        match f.value
        case Slice(es) => map[key := MarshalSlice(es, rfc)]
        case Ptr(None) => assert false; map[]
        case Ptr(Some(r)) => Nested(key, r, rfc)
        case Struct(r) => Nested(key, r, rfc)
        case _ => map[key := [MarshalValue(f.value, rfc)]]
  }

  /** The loop of encoder.value from field `i` on: each field's entries are set over the
      output so far, so a later field replaces an earlier one's list under the same key. */
  function Walk(fs: seq<Field>, i: nat, acc: Query, rfc: Rfc3339): Query
    requires i <= |fs| && FieldsSafe(fs)
    decreases fs, |fs| - i
  {
    if i == |fs| then acc else Walk(fs, i + 1, acc + FieldEntries(fs[i], rfc), rfc)
  }

  /** Marshal of a non-nil pointer to a struct: its MarshalQuery result unchanged when it
      is a Marshaller, otherwise the field walk, which never reports an error. */
  function MarshalRecord(r: Record, rfc: Rfc3339): (m: Marshalled)
    requires RecordSafe(r)
    ensures r.methods.marshalQuery.Some? ==> m == r.methods.marshalQuery.value
    ensures r.methods.marshalQuery.None? ==> m.err == None
    decreases r, 2
  {
    match r.methods.marshalQuery
    case Some(result) => result
    case None => Marshalled(Walk(r.fields, 0, map[], rfc), None)
  }

  /** reflect.TypeOf of the input, for the error. */
  function TypeOfInput(inp: Input): Option<GoType> {
    match inp
    case Untyped => None
    case NonPointer(n) => Some(GoType(n, false))
    case NilPointer(n) => Some(GoType(n, true))
    case Pointer(_) => None
  }

  /** Marshal: anything but a non-nil pointer is refused with an InvalidMarshalError and
      no values; a pointer is encoded by MarshalRecord. */
  function Marshal(inp: Input, rfc: Rfc3339): (m: Marshalled)
    requires inp.Pointer? ==> RecordSafe(inp.rec)
    ensures !inp.Pointer? ==> m == Marshalled(map[], Some(InvalidMarshal(TypeOfInput(inp))))
    ensures inp.NonPointer? ==> InvalidMarshalMessage(m.err.value.typ) == MessagePrefix + "non-pointer " + inp.typeName + ")"
    ensures inp.NilPointer? ==> InvalidMarshalMessage(m.err.value.typ) == MessagePrefix + "nil " + inp.typeName + ")"
    ensures inp.Pointer? && inp.rec.methods.marshalQuery.Some? ==> m == inp.rec.methods.marshalQuery.value
    ensures inp.Pointer? && inp.rec.methods.marshalQuery.None? ==> m.err == None
    ensures inp.Pointer? ==> m == MarshalRecord(inp.rec, rfc)
  {
    if !inp.Pointer? then Marshalled(map[], Some(InvalidMarshal(TypeOfInput(inp))))
    else MarshalRecord(inp.rec, rfc)
  }
}

=== FILE: encode_props.dfy ===
/** Properties of the encoder: how the field walk combines the fields' entries, and what
    each kind of field contributes. */
module EncodeProps {
  import opened Wrappers
  import opened Strings
  import opened Strconv
  import opened Times
  import opened Tags
  import opened Reflect
  import opened Utils
  import opened Encode

  /** Field `j` is the last field of `fs` that writes key `k`. */
  predicate LastWriter(fs: seq<Field>, j: nat, k: string, rfc: Rfc3339)
    requires FieldsSafe(fs) && j < |fs|
  {
    k in FieldEntries(fs[j], rfc) && forall l :: j < l < |fs| ==> k !in FieldEntries(fs[l], rfc)
  }

  /** Left-to-right map override of a list of entry maps, from index `i` on: the shape
      of the field walk once each field's entries are known. */
  function Fold(es: seq<Query>, i: nat, acc: Query): Query
    requires i <= |es|
    decreases |es| - i
  {
    if i == |es| then acc else Fold(es, i + 1, acc + es[i])
  }

  /** The entries each field of `fs` writes, in field order. */
  function EntriesOf(fs: seq<Field>, rfc: Rfc3339): (es: seq<Query>)
    requires FieldsSafe(fs)
    ensures |es| == |fs|
    ensures forall j :: 0 <= j < |fs| ==> es[j] == FieldEntries(fs[j], rfc)
  {
    seq(|fs|, j requires 0 <= j < |fs| => FieldEntries(fs[j], rfc))
  }

  /** The field walk is the fold of the fields' entries. */
  lemma {:induction false} WalkIsFold(fs: seq<Field>, es: seq<Query>, i: nat, acc: Query, rfc: Rfc3339)
    requires i <= |fs| && FieldsSafe(fs) && |es| == |fs|
    requires forall j :: i <= j < |fs| ==> es[j] == FieldEntries(fs[j], rfc)
    ensures Walk(fs, i, acc, rfc) == Fold(es, i, acc)
    decreases |fs| - i
  {
    if i < |fs| {
      WalkIsFold(fs, es, i + 1, acc + es[i], rfc);
    }
  }

  /** The keys of a fold: those already there and those some remaining map holds. */
  lemma {:induction false} FoldKeys(es: seq<Query>, i: nat, acc: Query, k: string)
    requires i <= |es|
    ensures k in Fold(es, i, acc) <==> k in acc || exists j :: i <= j < |es| && k in es[j]
    decreases |es| - i
  {
    if i < |es| {
      FoldKeys(es, i + 1, acc + es[i], k);
    }
  }

  /** A key no remaining map holds keeps the value it already had. */
  lemma {:induction false} FoldUntouched(es: seq<Query>, i: nat, acc: Query, k: string)
    requires i <= |es| && k in acc
    requires forall j :: i <= j < |es| ==> k !in es[j]
    ensures k in Fold(es, i, acc) && Fold(es, i, acc)[k] == acc[k]
    decreases |es| - i
  {
    if i < |es| {
      FoldUntouched(es, i + 1, acc + es[i], k);
    }
  }

  /** A key held by a remaining map takes its value from the last such map. */
  lemma {:induction false} FoldLast(es: seq<Query>, i: nat, acc: Query, k: string, j: nat)
    requires i <= j < |es| && k in es[j]
    requires forall l :: j < l < |es| ==> k !in es[l]
    ensures k in Fold(es, i, acc) && Fold(es, i, acc)[k] == es[j][k]
    decreases |es| - i
  {
    if i < j {
      FoldLast(es, i + 1, acc + es[i], k, j);
    } else {
      FoldUntouched(es, i + 1, acc + es[i], k);
    }
  }

  /** The walk from field `i` on: a key is in the output exactly when it was there before
      or some remaining field writes it, and it holds the list of the last such field. */
  lemma WalkWriters(fs: seq<Field>, i: nat, acc: Query, k: string, rfc: Rfc3339)
    requires i <= |fs| && FieldsSafe(fs)
    ensures k in Walk(fs, i, acc, rfc) <==> k in acc || exists j :: i <= j < |fs| && k in FieldEntries(fs[j], rfc)
    ensures forall j :: i <= j < |fs| && LastWriter(fs, j, k, rfc) ==>
      k in Walk(fs, i, acc, rfc) && Walk(fs, i, acc, rfc)[k] == FieldEntries(fs[j], rfc)[k]
    ensures k in acc && (forall j :: i <= j < |fs| ==> k !in FieldEntries(fs[j], rfc)) ==>
      k in Walk(fs, i, acc, rfc) && Walk(fs, i, acc, rfc)[k] == acc[k]
  {
    var es := EntriesOf(fs, rfc);
    WalkIsFold(fs, es, i, acc, rfc);
    FoldKeys(es, i, acc, k);
    forall j | i <= j < |fs| && LastWriter(fs, j, k, rfc)
      ensures k in Walk(fs, i, acc, rfc) && Walk(fs, i, acc, rfc)[k] == FieldEntries(fs[j], rfc)[k]
    {
      FoldLast(es, i, acc, k, j);
    }
    if k in acc && (forall j :: i <= j < |fs| ==> k !in FieldEntries(fs[j], rfc)) {
      FoldUntouched(es, i, acc, k);
    }
  }

  /** The encoding of a record that is not a Marshaller, key by key: a key is present
      exactly when some field writes it, and the last field writing it wins. */
  lemma MarshalRecordLastWriterWins(r: Record, k: string, rfc: Rfc3339)
    requires r.methods.marshalQuery.None? && FieldsSafe(r.fields)
    ensures k in MarshalRecord(r, rfc).values <==> exists j :: 0 <= j < |r.fields| && k in FieldEntries(r.fields[j], rfc)
    ensures forall j :: 0 <= j < |r.fields| && LastWriter(r.fields, j, k, rfc) ==>
      MarshalRecord(r, rfc).values[k] == FieldEntries(r.fields[j], rfc)[k]
  {
    WalkWriters(r.fields, 0, map[], k, rfc);
  }

  /** Every key of the encoding is the key of a field that is not skipped, or lies under
      it after a dot (field keys are never empty for Go's non-empty field names). */
  lemma MarshalRecordKeysResolve(r: Record, k: string, rfc: Rfc3339)
    requires r.methods.marshalQuery.None? && FieldsSafe(r.fields)
    requires forall j :: 0 <= j < |r.fields| ==> ResolveKey(r.fields[j]) != ""
    requires k in MarshalRecord(r, rfc).values
    ensures exists j :: (0 <= j < |r.fields| && !Skipped(r.fields[j]) &&
      (k == ResolveKey(r.fields[j]) || HasPrefix(k, ResolveKey(r.fields[j]) + ".")))
  {
    MarshalRecordLastWriterWins(r, k, rfc);
    var j :| 0 <= j < |r.fields| && k in FieldEntries(r.fields[j], rfc);
    assert !Skipped(r.fields[j]);
  }

  /** A skipped field leaves the output as it was. */
  lemma SkippedFieldWritesNothing(fs: seq<Field>, i: nat, acc: Query, rfc: Rfc3339)
    requires i < |fs| && FieldsSafe(fs) && Skipped(fs[i])
    ensures Walk(fs, i, acc, rfc) == Walk(fs, i + 1, acc, rfc)
  {
    assert acc + FieldEntries(fs[i], rfc) == acc;
  }

  /** A field with omitempty and an empty value writes nothing; so does a field tagged "-"
      or one that cannot be set. */
  lemma SkipRules(f: Field, rfc: Rfc3339)
    ensures !f.settable ==> FieldSafe(f) && FieldEntries(f, rfc) == map[]
    ensures ParseTag(f.tag).name == "-" ==> FieldSafe(f) && FieldEntries(f, rfc) == map[]
    ensures ParseTag(f.tag).omitEmpty && IsEmptyValue(f.value) ==> FieldSafe(f) && FieldEntries(f, rfc) == map[]
  {
  }

  /** A field whose type has a text method is written as that single text, before any
      dispatch on its kind: a struct with MarshalText or String is not flattened. */
  lemma TextMethodsFirst(f: Field, rfc: Rfc3339)
    requires !Skipped(f) && ValueSafe(f.value)
    requires CompatibleInterfaceValue(f.value, rfc).Some?
    ensures FieldEntries(f, rfc) == map[ResolveKey(f) := [CompatibleInterfaceValue(f.value, rfc).value]]
  {
  }

  /** MarshalText takes precedence over String. */
  lemma TextMarshalerBeforeStringer(r: Record, rfc: Rfc3339)
    requires r.methods.marshalText.Some?
    ensures CompatibleInterfaceValue(Struct(r), rfc) == r.methods.marshalText
    ensures CompatibleInterfaceValue(Ptr(Some(r)), rfc) == r.methods.marshalText
  {
  }

  /** A slice field writes one list under its key, as long as the slice and in the same
      order; an empty slice still writes its key, with an empty list. */
  lemma SliceField(f: Field, rfc: Rfc3339)
    requires !Skipped(f) && f.value.Slice? && ValueSafe(f.value)
    ensures FieldEntries(f, rfc).Keys == {ResolveKey(f)}
    ensures var texts := FieldEntries(f, rfc)[ResolveKey(f)];
      |texts| == |f.value.elems| &&
      forall i :: 0 <= i < |texts| ==> texts[i] == MarshalValue(f.value.elems[i], rfc)
  {
  }

  /** A nested struct field (by value or through a non-nil pointer) without text methods
      is flattened: each key of the nested encoding appears under the field's key after a
      dot, with the same list, and the field's own key is never written. An error from
      the nested encoding drops it. */
  lemma NestedField(f: Field, r: Record, rfc: Rfc3339)
    requires !Skipped(f) && (f.value == Struct(r) || f.value == Ptr(Some(r)))
    requires TextOf(r.methods).None? && RecordSafe(r)
    requires ResolveKey(f) != ""
    ensures ResolveKey(f) !in FieldEntries(f, rfc)
    ensures MarshalRecord(r, rfc).err.Some? ==> FieldEntries(f, rfc) == map[]
    ensures MarshalRecord(r, rfc).err.None? ==>
      forall k :: k in MarshalRecord(r, rfc).values ==>
        var key := ResolveKey(f) + "." + k;
        key in FieldEntries(f, rfc) && FieldEntries(f, rfc)[key] == MarshalRecord(r, rfc).values[k]
    ensures MarshalRecord(r, rfc).err.None? ==>
      forall key :: key in FieldEntries(f, rfc) ==>
        HasPrefix(key, ResolveKey(f) + ".") && key[|ResolveKey(f)| + 1..] in MarshalRecord(r, rfc).values
  {
    assert CompatibleInterfaceValue(f.value, rfc).None?;
    assert FieldEntries(f, rfc) == Nested(ResolveKey(f), r, rfc);
  }

  /** A field of any other kind writes its single text under its key: a string verbatim,
      a boolean as "true" or "false", an integer as a base-10 numeral that reads back to
      it, and an array, a map or an interface as the empty text. */
  lemma ScalarField(f: Field, rfc: Rfc3339)
    requires !Skipped(f)
    requires f.value.Str? || f.value.Bool? || f.value.Int? || f.value.Uint? ||
      f.value.Array? || f.value.Dict? || f.value.Iface?
    ensures FieldEntries(f, rfc) == map[ResolveKey(f) := [MarshalValue(f.value, rfc)]]
    ensures f.value.Array? || f.value.Dict? || f.value.Iface? ==> FieldEntries(f, rfc) == map[ResolveKey(f) := [""]]
  {
  }

  /** omitempty never drops a nested struct as a whole, even one whose fields all hold
      zero values: only the three skip rules' other two cases can skip it. */
  lemma OmitEmptyKeepsStructs(f: Field)
    requires f.value.Struct? && f.settable && ResolveKey(f) != "-"
    ensures !Skipped(f)
  {
  }

  /** The omitempty example: a field tagged "<name>,omitempty" holding 0 is left out,
      holding 5 it is written as the single value "5". */
  lemma OmitEmptyExample(fieldName: string, name: string, rfc: Rfc3339)
    requires ',' !in name && name != "" && name != "-"
    ensures FieldEntries(Field(fieldName, name + "," + OmitEmpty, true, Int(0)), rfc) == map[]
    ensures FieldEntries(Field(fieldName, name + "," + OmitEmpty, true, Int(5)), rfc) == map[name := ["5"]]
  {
    ParseTagOmitEmptyForm(name);
    var zero := Field(fieldName, name + "," + OmitEmpty, true, Int(0));
    var five := Field(fieldName, name + "," + OmitEmpty, true, Int(5));
    assert ResolveKey(zero) == name && Skipped(zero);
    assert ResolveKey(five) == name && !Skipped(five);
    assert CompatibleInterfaceValue(five.value, rfc).None?;
    assert MarshalValue(five.value, rfc) == "5" by {
      assert FormatInt(5) == "5";
    }
  }

  /** A tagged field is keyed by the text of its tag before the first comma, as written:
      `conditional,omitempty` is keyed `conditional`. */
  lemma TaggedKey(f: Field, name: string)
    requires name != "" && ',' !in name
    requires f.tag == name || (HasPrefix(f.tag, name + ","))
    ensures ResolveKey(f) == name
  {
    if f.tag != name {
      assert f.tag[..|name|] == name && f.tag[|name|] == ',';
      assert IndexOf(f.tag, ',') == Some(|name|);
    }
  }

  /** The untagged-field example: a field without a tag is keyed by its lower-cased name. */
  lemma DefaultKeyIsLowerCase(f: Field)
    requires f.tag == ""
    ensures ResolveKey(f) == ToLower(f.name)
  {
  }
}

=== FILE: fields.dfy ===
/** Comparative query values: a payload preceded by an optional relational
    operator (fields.go). */
module Fields {
  import opened Wrappers
  import opened Strings
  import opened Times

  const Equals: string := "="
  const Greater: string := ">"
  const GreaterEq: string := ">="
  const Lesser: string := "<"
  const LesserEq: string := "<="
  const Like: string := "~"
  const Different: string := "!"

  /** The seven operators the lexer can return. */
  const Operators: set<string> := {Equals, Greater, GreaterEq, Lesser, LesserEq, Like, Different}

  /** The operators that are actually written in front of a payload. */
  const Explicit: set<string> := {Greater, GreaterEq, Lesser, LesserEq, Like, Different}

  /** The characters an explicit operator can start with. */
  predicate IsOperatorStart(c: char) {
    c == '<' || c == '>' || c == '~' || c == '!'
  }

  /** parseOperator: the leading operator of `s`, or "=" when `s` does not start with one.
      The lexer reads `s[0]`, so it needs a non-empty string. Its result is the longest
      explicit operator that prefixes `s`. */
  function ParseOperator(s: string): (op: string)
    requires |s| > 0
    ensures op in Operators
    ensures op != Equals ==> HasPrefix(s, op)
    ensures op == Equals <==> !IsOperatorStart(s[0])
    ensures forall o :: o in Explicit && HasPrefix(s, o) ==> op != Equals && |o| <= |op|
  {
    match s[0]
    case '<' => if |s| == 1 then Lesser else if s[1] == '=' then LesserEq else Lesser
    case '>' => if |s| == 1 then Greater else if s[1] == '=' then GreaterEq else Greater
    case '~' => Like
    case '!' => Different
    case _ => Equals
  }

  /** The two-character operators are returned exactly when the second character is '='. */
  lemma ParseOperatorTwoChar(s: string)
    requires |s| > 0
    ensures ParseOperator(s) == LesserEq <==> |s| > 1 && s[0] == '<' && s[1] == '='
    ensures ParseOperator(s) == GreaterEq <==> |s| > 1 && s[0] == '>' && s[1] == '='
    ensures ParseOperator(s) == Lesser <==> s[0] == '<' && (|s| == 1 || s[1] != '=')
    ensures ParseOperator(s) == Greater <==> s[0] == '>' && (|s| == 1 || s[1] != '=')
  {
  }

  /** The errors the two Parse methods report. */
  datatype ParseError =
    | InvalidTimestampQuery
    | InvalidQuery
    | InvalidStringOperator
    | TimeSyntax(message: string)

  const ErrorPrefix: string := "qstring: "

  /** The text of each error: the package's own errors carry the "qstring: " prefix, and a
      time parser error is passed on unchanged. */
  function Message(e: ParseError): (text: string)
    ensures !e.TimeSyntax? ==> HasPrefix(text, ErrorPrefix)
    ensures e.TimeSyntax? ==> text == e.message
  {
    match e
    case InvalidTimestampQuery => ErrorPrefix + "Invalid Timestamp Query"
    case InvalidQuery => ErrorPrefix + "Invalid Query"
    case InvalidStringOperator => ErrorPrefix + "Invalid operator for *qstring.ComparativeString"
    case TimeSyntax(m) => m
  }

  /** The package's three errors are told apart by their texts. */
  lemma MessagesDistinct(a: ParseError, b: ParseError)
    requires !a.TimeSyntax? && !b.TimeSyntax? && a != b
    ensures Message(a) != Message(b)
  {
  }

  /** The receiver of a Parse method after the call, and the error it returned. */
  datatype Parsed<T> = Parsed(value: T, err: Option<ParseError>)

  /** A timestamp with a relational operator. */
  datatype ComparativeTime = ComparativeTime(operator: string, time: Time)

  /** A string with an operator: "" (equality), "~" (like) or "!" (different). */
  datatype ComparativeString = ComparativeString(operator: string, str: string)

  /** NewComparativeTime: the zero time with the default operator. */
  function NewComparativeTime(): (c: ComparativeTime)
    ensures c.operator == Equals && c.time == Zero
  {
    ComparativeTime(Equals, Zero)
  }

  /** The payload handed to the time parser: `query` with its lexed operator removed
      when the query starts with it. When it does not, the operator is the default "="
      and the code puts an "=" in front before cutting it off again. */
  function TimePayload(query: string): (payload: string)
    requires |query| > 0
    ensures HasPrefix(query, ParseOperator(query)) ==> query == ParseOperator(query) + payload
    ensures !HasPrefix(query, ParseOperator(query)) ==> payload == query
  {
    var op := ParseOperator(query);
    var q := if HasPrefix(query, op) then query else Equals + query;
    q[|op|..]
  }

  /** ComparativeTime.Parse, on receiver `c`. */
  function ParseComparativeTime(c: ComparativeTime, query: string, rfc: Rfc3339): (r: Parsed<ComparativeTime>)
    ensures |query| <= 2 ==> r == Parsed(c, Some(InvalidTimestampQuery))
    ensures |query| <= 2 ==> Message(r.err.value) == ErrorPrefix + "Invalid Timestamp Query"
    ensures |query| > 2 ==> r.value.operator == ParseOperator(query)
    ensures |query| > 2 ==>
      var p := TimePayload(query);
      match rfc.parse(p)
      case Success(t) => r.value.time == t && r.err == None
      case Failure(m) => r.value.time == Zero && r.err == Some(TimeSyntax(m))
  {
    if |query| <= 2 then Parsed(c, Some(InvalidTimestampQuery))
    else
      var op := ParseOperator(query);
      match rfc.parse(TimePayload(query))
      case Success(t) => Parsed(ComparativeTime(op, t), None)
      case Failure(m) => Parsed(ComparativeTime(op, Zero), Some(TimeSyntax(m)))
  }

  /** ComparativeTime.String: the operator followed by the RFC 3339 text of the time. */
  function ComparativeTimeString(c: ComparativeTime, rfc: Rfc3339): string {
    c.operator + rfc.format(c.time)
  }

  /** The text of a comparative time parses back to it, for every operator. */
  lemma ComparativeTimeRoundTrip(c0: ComparativeTime, c: ComparativeTime, rfc: Rfc3339)
    requires c.operator in Operators
    requires FormatsDateTime(rfc, c.time) && RoundTrips(rfc, c.time)
    ensures ParseComparativeTime(c0, ComparativeTimeString(c, rfc), rfc) == Parsed(c, None)
  {
    OperatorThenPayload(c.operator, rfc.format(c.time));
  }

  /** An operator followed by a payload that starts with neither an operator character nor
      '=' lexes back to that operator, and the time parser is handed the payload. */
  lemma OperatorThenPayload(op: string, payload: string)
    requires op in Operators && |payload| > 0
    requires !IsOperatorStart(payload[0]) && payload[0] != '='
    ensures ParseOperator(op + payload) == op
    ensures TimePayload(op + payload) == payload
  {
    assert (op + payload)[|op|..] == payload;
  }

  /** Reading a canonical timestamp query and printing it again gives the query back,
      with an explicit "=" when the query carried no operator. */
  lemma ComparativeTimeReprint(c0: ComparativeTime, query: string, rfc: Rfc3339)
    requires |query| > 2
    requires rfc.parse(TimePayload(query)).Success?
    requires rfc.format(rfc.parse(TimePayload(query)).value) == TimePayload(query)
    ensures var r := ParseComparativeTime(c0, query, rfc);
      r.err == None &&
      ComparativeTimeString(r.value, rfc) == if IsOperatorStart(query[0]) || query[0] == '=' then query else Equals + query
  {
  }

  /** ComparativeString.Parse, on receiver `c`. */
  function ParseComparativeString(c: ComparativeString, query: string): (r: Parsed<ComparativeString>)
    ensures |query| <= 2 ==> r == Parsed(c, Some(InvalidQuery))
    ensures |query| <= 2 ==> Message(r.err.value) == ErrorPrefix + "Invalid Query"
    ensures |query| > 2 && r.err.Some? ==>
      r == Parsed(ComparativeString(ParseOperator(query), c.str), Some(InvalidStringOperator))
    ensures |query| > 2 && r.err.Some? ==>
      Message(r.err.value) == ErrorPrefix + "Invalid operator for *qstring.ComparativeString"
  {
    if |query| <= 2 then Parsed(c, Some(InvalidQuery))
    else
      var lexed := ParseOperator(query);
      if lexed != Different && lexed != Like && lexed != Equals then
        Parsed(ComparativeString(lexed, c.str), Some(InvalidStringOperator))
      else
        var op := if lexed == Equals then "" else lexed;
        var q := if HasPrefix(query, op) then query else Equals + query;
        Parsed(ComparativeString(op, q[|op|..]), None)
  }

  /** ComparativeString.String. */
  function ComparativeStringString(c: ComparativeString): string {
    c.operator + c.str
  }

  /** Which queries ComparativeString.Parse accepts, and what it makes of them:
      "~x" and "!x" keep their operator, everything else is an equality on the whole query. */
  lemma ComparativeStringAccepts(c: ComparativeString, query: string)
    ensures ParseComparativeString(c, query).err == None <==> |query| > 2 && query[0] != '<' && query[0] != '>'
    ensures ParseComparativeString(c, query).err == None ==>
      ParseComparativeString(c, query).value ==
        if query[0] == '~' || query[0] == '!' then ComparativeString([query[0]], query[1..])
        else ComparativeString("", query)
  {
  }

  /** Printing an accepted comparative string gives back the query it was read from. */
  lemma ComparativeStringReprint(c: ComparativeString, query: string)
    requires ParseComparativeString(c, query).err == None
    ensures ComparativeStringString(ParseComparativeString(c, query).value) == query
  {
  }

  /** Reading the text of a comparative string gives it back, provided the text is long
      enough and an equality's payload does not itself start with an operator. */
  lemma ComparativeStringRoundTrip(c0: ComparativeString, c: ComparativeString)
    requires c.operator in {"", Like, Different}
    requires |ComparativeStringString(c)| > 2
    requires c.operator == "" ==> !IsOperatorStart(c.str[0])
    ensures ParseComparativeString(c0, ComparativeStringString(c)) == Parsed(c, None)
  {
    var q := ComparativeStringString(c);
    ComparativeStringAccepts(c0, q);
    if c.operator == "" {
      assert q == c.str;
    } else {
      assert |c.operator| == 1 && q[0] == c.operator[0];
      assert [q[0]] == c.operator && q[1..] == c.str;
    }
  }
}

=== FILE: reflect.dfy ===
/** The values the encoder walks, as an explicit closed union in place of Go's
    reflection: a record is its ordered field descriptors plus the methods its
    type declares that the codec looks for. */
module Reflect {
  import opened Wrappers
  import opened Times
  import opened Fields

  /** url.Values: each key to its ordered list of values. */
  type Query = map<string, seq<string>>

  /** A Go type, as far as the error messages show it: its printed name
      (`qstring.TestStruct`, `*qstring.TestStruct`) and whether it is a pointer type. */
  datatype GoType = GoType(name: string, isPointer: bool)

  /** The errors Marshal returns. */
  datatype EncodeError =
    | InvalidMarshal(typ: Option<GoType>)  // InvalidMarshalError; None for an untyped nil
    | QueryError(message: string)          // returned by a MarshalQuery method

  /** The pair (url.Values, error) that Marshal and MarshalQuery return. */
  datatype Marshalled = Marshalled(values: Query, err: Option<EncodeError>)

  /** The methods of a record type the encoder checks for, each with what it returns
      for this record: MarshalText (encoding.TextMarshaler; its error is ignored by the
      encoder, so only the text is kept), String (fmt.Stringer), and MarshalQuery
      (the whole-record Marshaller). */
  datatype Methods = Methods(
    marshalText: Option<string>,
    stringer: Option<string>,
    marshalQuery: Option<Marshalled>)

  /** A struct value: its fields in declaration order and its type's methods. */
  datatype Record = Record(fields: seq<Field>, methods: Methods)

  /** One struct field: its declared name, its `qstring` tag text ("" when absent),
      whether reflection may set it (exported and addressable), and its value. */
  datatype Field = Field(name: string, tag: string, settable: bool, value: Value)

  /** A field value, by kind. Signed integers of every width are Int, unsigned ones
      other than uintptr are Uint; `Dict` is a map, of which only the number of
      entries is kept; `Iface` is a field of the empty interface type; `Invalid` is
      the zero reflect.Value (reflect.ValueOf(nil)). */
  datatype Value =
    | Str(s: string)
    | Bool(b: bool)
    | Int(i: int)
    | Uint(u: nat)
    | TimeVal(t: Time)
    | CompTime(ct: ComparativeTime)
    | CompStr(cs: ComparativeString)
    | Slice(elems: seq<Value>)
    | Array(elems: seq<Value>)
    | Dict(size: nat)
    | Iface(held: Option<Value>)
    | Struct(rec: Record)
    | Ptr(target: Option<Record>)
    | Invalid
}

=== FILE: strconv.dfy ===
/** The base-10 and boolean formatting of Go's `strconv` package used for scalar
    fields, each paired with the parser that inverts it. */
module Strconv {

  predicate IsDigit(c: char) {
    '0' <= c <= '9'
  }

  predicate AllDigits(s: string) {
    forall i :: 0 <= i < |s| ==> IsDigit(s[i])
  }

  function DigitChar(d: nat): (c: char)
    requires d < 10
    ensures IsDigit(c)
  {
    ('0' as int + d) as char
  }

  function DigitValue(c: char): (d: nat)
    requires IsDigit(c)
    ensures d < 10
  {
    c as int - '0' as int
  }

  /** strconv.FormatUint(n, 10): the shortest decimal numeral of `n`. */
  function FormatUint(n: nat): (r: string)
    ensures |r| > 0 && AllDigits(r)
    ensures r[0] == '0' ==> n == 0 && r == "0"
  {
    if n < 10 then [DigitChar(n)] else FormatUint(n / 10) + [DigitChar(n % 10)]
  }

  /** The value of a decimal numeral, most significant digit first. */
  function DecimalValue(s: string): nat
    requires AllDigits(s)
  {
    if |s| == 0 then 0 else DecimalValue(s[..|s| - 1]) * 10 + DigitValue(s[|s| - 1])
  }

  /** Reading back a formatted unsigned integer gives the integer. */
  lemma {:induction false} DecimalValueFormatUint(n: nat)
    ensures DecimalValue(FormatUint(n)) == n
  {
    if n >= 10 {
      var r := FormatUint(n);
      assert r[..|r| - 1] == FormatUint(n / 10);
      DecimalValueFormatUint(n / 10);
    }
  }

  /** A canonical decimal numeral: at least one digit, and no leading zero unless it is
      the numeral "0" itself. */
  predicate IsCanonical(s: string) {
    |s| > 0 && AllDigits(s) && (s[0] == '0' ==> s == "0")
  }

  /** A canonical signed numeral: a canonical unsigned one, or a minus sign followed by
      a canonical numeral other than "0". */
  predicate IsCanonicalInt(s: string) {
    |s| > 0 && if s[0] == '-' then IsCanonical(s[1..]) && s[1] != '0' else IsCanonical(s)
  }

  /** A decimal numeral without a leading zero denotes a positive number. */
  lemma {:induction false} LeadingDigitPositive(s: string)
    requires |s| > 0 && AllDigits(s) && s[0] != '0'
    ensures DecimalValue(s) > 0
    decreases |s|
  {
    if |s| > 1 {
      LeadingDigitPositive(s[..|s| - 1]);
    }
  }

  /** The canonical numeral of a number is unique: it is the one FormatUint writes. */
  lemma {:induction false} CanonicalIsFormatUint(s: string)
    requires IsCanonical(s)
    ensures s == FormatUint(DecimalValue(s))
    decreases |s|
  {
    if |s| > 1 {
      var init := s[..|s| - 1];
      assert init[0] == s[0];
      LeadingDigitPositive(init);
      CanonicalIsFormatUint(init);
      var n := DecimalValue(s);
      assert n / 10 == DecimalValue(init) && n % 10 == DigitValue(s[|s| - 1]);
      assert s == init + [s[|s| - 1]];
    }
  }

  /** strconv.FormatInt(i, 10): a minus sign for negative values, then the digits. */
  function FormatInt(i: int): (r: string)
    ensures |r| > 0
    ensures i < 0 <==> r[0] == '-'
    ensures i >= 0 ==> r == FormatUint(i)
    ensures i < 0 ==> r[1..] == FormatUint(-i)
  {
    if i < 0 then "-" + FormatUint(-i) else FormatUint(i)
  }

  /** Reads a base-10 integer: an optional minus sign followed by at least one digit. */
  predicate IsIntNumeral(s: string) {
    |s| > 0 && (s[0] == '-' ==> |s| > 1) && AllDigits(if s[0] == '-' then s[1..] else s)
  }

  function ParseInt(s: string): int
    requires IsIntNumeral(s)
  {
    if s[0] == '-' then -(DecimalValue(s[1..]) as int) else DecimalValue(s)
  }

  /** Parsing a formatted integer gives the integer back. */
  lemma ParseFormatInt(i: int)
    ensures IsIntNumeral(FormatInt(i)) && ParseInt(FormatInt(i)) == i
    ensures IsCanonicalInt(FormatInt(i))
  {
    if i < 0 {
      DecimalValueFormatUint(-i);
    } else {
      DecimalValueFormatUint(i);
    }
  }

  /** A canonical signed numeral is the one FormatInt writes for its value: together with
      ParseFormatInt, FormatInt(i) is the only canonical numeral that reads back to i. */
  lemma CanonicalIsFormatInt(s: string)
    requires IsCanonicalInt(s)
    ensures IsIntNumeral(s) && s == FormatInt(ParseInt(s))
  {
    if s[0] == '-' {
      CanonicalIsFormatUint(s[1..]);
      LeadingDigitPositive(s[1..]);
      assert s == "-" + s[1..];
    } else {
      CanonicalIsFormatUint(s);
    }
  }

  /** strconv.FormatBool. */
  function FormatBool(b: bool): (r: string)
    ensures r == "true" || r == "false"
    ensures b <==> r == "true"
  {
    if b then "true" else "false"
  }
}

=== FILE: strings.dfy ===
/** The string helpers of Go's `strings` package that the codec relies on,
    over strings modelled as sequences of characters (one character per byte). */
module Strings {
  import opened Wrappers

  /** The position of the first occurrence of `c` in `s`, or None (Go's -1). */
  function IndexOf(s: string, c: char): (r: Option<nat>)
    ensures r.None? <==> c !in s
    ensures r.Some? ==> r.value < |s| && s[r.value] == c && c !in s[..r.value]
  {
    if |s| == 0 then None
    else if s[0] == c then Some(0)
    else match IndexOf(s[1..], c)
      case None => None
      case Some(i) => assert s[1..][..i] == s[1..i + 1]; Some(i + 1)
  }

  /** Go's strings.HasPrefix. */
  predicate HasPrefix(s: string, prefix: string) {
    prefix <= s
  }

  /** Go's strings.Split(s, [sep]): the pieces of `s` between occurrences of `sep`.
      Splitting the empty string gives one empty piece. */
  function Split(s: string, sep: char): (pieces: seq<string>)
    ensures |pieces| >= 1
    ensures sep !in s ==> pieces == [s]
    ensures sep in s ==> IndexOf(s, sep).Some? && pieces[0] == s[..IndexOf(s, sep).value]
    decreases |s|
  {
    match IndexOf(s, sep)
    case None => [s]
    case Some(i) => [s[..i]] + Split(s[i + 1..], sep)
  }

  /** The inverse of Split: the pieces glued back together with `sep`. */
  function Join(pieces: seq<string>, sep: char): string
    requires |pieces| >= 1
  {
    if |pieces| == 1 then pieces[0] else pieces[0] + [sep] + Join(pieces[1..], sep)
  }

  /** Joining the pieces of a split gives back the original string. */
  lemma {:induction false} JoinSplit(s: string, sep: char)
    ensures Join(Split(s, sep), sep) == s
    decreases |s|
  {
    match IndexOf(s, sep)
    case None =>
    case Some(i) =>
      var rest := Split(s[i + 1..], sep);
      assert Split(s, sep) == [s[..i]] + rest;
      JoinCons(s[..i], rest, sep);
      JoinSplit(s[i + 1..], sep);
      Reassemble(s, i);
  }

  lemma Reassemble(s: string, i: nat)
    requires i < |s|
    ensures s[..i] + [s[i]] + s[i + 1..] == s
  {
  }

  lemma JoinCons(first: string, rest: seq<string>, sep: char)
    requires |rest| >= 1
    ensures Join([first] + rest, sep) == first + [sep] + Join(rest, sep)
  {
    assert ([first] + rest)[1..] == rest;
  }

  /** Splitting pieces that are free of `sep` after joining them gives them back. */
  lemma {:induction false} SplitJoin(pieces: seq<string>, sep: char)
    requires |pieces| >= 1
    requires forall i :: 0 <= i < |pieces| ==> sep !in pieces[i]
    ensures Split(Join(pieces, sep), sep) == pieces
    decreases |pieces|
  {
    if |pieces| > 1 {
      var first, tail := pieces[0], pieces[1..];
      forall i | 0 <= i < |tail| ensures sep !in tail[i] {
        assert tail[i] == pieces[i + 1];
      }
      SplitJoin(tail, sep);
      assert [first] + tail == pieces;
      SplitJoinCons(first, tail, sep);
    }
  }

  /** One step of SplitJoin: a `sep`-free piece joined in front of pieces that split back
      splits back as well. */
  lemma SplitJoinCons(first: string, tail: seq<string>, sep: char)
    requires |tail| >= 1 && sep !in first
    requires Split(Join(tail, sep), sep) == tail
    ensures Split(Join([first] + tail, sep), sep) == [first] + tail
  {
    var rest := Join(tail, sep);
    JoinCons(first, tail, sep);
    IndexOfFirstSep(first, rest, sep);
    SplitStep(first + [sep] + rest, sep, |first|);
  }

  /** Split at the first occurrence of `sep`: the piece before it, then the split of the rest. */
  lemma SplitStep(s: string, sep: char, i: nat)
    requires IndexOf(s, sep) == Some(i)
    ensures Split(s, sep) == [s[..i]] + Split(s[i + 1..], sep)
  {
  }

  /** In a string that starts with a `sep`-free piece followed by `sep`, the first `sep` is
      the one right after the piece. */
  lemma IndexOfFirstSep(first: string, rest: string, sep: char)
    requires sep !in first
    ensures IndexOf(first + [sep] + rest, sep) == Some(|first|)
    ensures (first + [sep] + rest)[..|first|] == first
    ensures (first + [sep] + rest)[|first| + 1..] == rest
  {
    var s := first + [sep] + rest;
    assert s[|first|] == sep;
    assert s[..|first|] == first;
  }

  /** Go's unicode.ToLower restricted to ASCII: upper-case letters map to lower case. */
  function LowerChar(c: char): char {
    if 'A' <= c <= 'Z' then (c as int - 'A' as int + 'a' as int) as char else c
  }

  predicate IsUpper(c: char) {
    'A' <= c <= 'Z'
  }

  /** Go's strings.ToLower, for ASCII letters. */
  function ToLower(s: string): (r: string)
    ensures |r| == |s|
    ensures forall i :: 0 <= i < |s| ==> r[i] == LowerChar(s[i])
    ensures forall i :: 0 <= i < |r| ==> !IsUpper(r[i])
  {
    if |s| == 0 then "" else [LowerChar(s[0])] + ToLower(s[1..])
  }
}

=== FILE: tags.dfy ===
/** The two-result tag parser of tags.go, the one the encoder calls. */
module Tags {
  import opened Wrappers
  import opened Strings

  const OmitEmpty: string := "omitempty"

  /** A parsed `qstring:"..."` annotation: the key name and the omitempty option. */
  datatype Tag = Tag(name: string, omitEmpty: bool)

  /** parseTag (tags.go): the name is the text before the first comma; omitempty is set
      only when the whole remainder after that comma is exactly "omitempty". */
  function ParseTag(tag: string): (r: Tag)
    ensures ',' !in tag ==> r == Tag(tag, false)
    ensures ',' !in r.name && HasPrefix(tag, r.name)
    ensures ',' in tag ==> |r.name| < |tag| && tag[|r.name|] == ','
    ensures ',' in tag ==> (r.omitEmpty <==> tag[|r.name| + 1..] == OmitEmpty)
  {
    match IndexOf(tag, ',')
    case Some(idx) =>
      if tag[idx + 1..] == OmitEmpty then Tag(tag[..idx], true) else Tag(tag[..idx], false)
    case None => Tag(tag, false)
  }

  /** The name is a fixed point: parsing it again gives it back, without omitempty. */
  lemma ParseTagNameStable(tag: string)
    ensures ParseTag(ParseTag(tag).name) == Tag(ParseTag(tag).name, false)
  {
  }

  /** A tag is reconstructed from its parse when the option is omitempty or absent. */
  lemma ParseTagOmitEmptyForm(name: string)
    requires ',' !in name
    ensures ParseTag(name + "," + OmitEmpty) == Tag(name, true)
    ensures ParseTag(name + ",") == Tag(name, false)
  {
  }
}

=== FILE: times.dfy ===
/** Go's time.Time, reduced to what the codec observes of it, and the RFC 3339
    (section 5.6, `date-time`) text codec it is written and read with. */
module Times {
  import opened Wrappers
  import Strconv

  /** An instant: whole seconds since January 1 of year 1 (UTC), nanoseconds, and
      the offset of the zone the time is shown in. The zero value is Go's time.Time{}. */
  datatype Time = Time(sec: int, nsec: int, offset: int)

  /** Go's time.Time{}. */
  const Zero: Time := Time(0, 0, 0)

  /** Go's Time.IsZero: the instant is January 1, year 1, 00:00:00 UTC, whatever the zone. */
  predicate IsZero(t: Time) {
    t.sec == 0 && t.nsec == 0
  }

  /** The text codec of the time package, left uninterpreted: `parse` is
      time.Parse(time.RFC3339, .) (on failure its message), `format` is
      Time.Format(time.RFC3339) and `marshalText` is Time.MarshalText (RFC 3339 with
      nanoseconds; the empty text when it reports an error). */
  datatype Rfc3339 = Rfc3339(
    parse: string -> Result<Time, string>,
    format: Time -> string,
    marshalText: Time -> string)

  /** The formatted text of `t` starts with the digits of its year and is longer than
      two characters. An RFC 3339 `date-time` begins with the four digits of
      `date-fullyear`; Go writes every year from 0 on that way, but a negative year
      with a leading minus sign, which this excludes. */
  ghost predicate FormatsDateTime(rfc: Rfc3339, t: Time) {
    |rfc.format(t)| > 2 && Strconv.IsDigit(rfc.format(t)[0])
  }

  /** Reading back the formatted text of `t` gives `t`. */
  ghost predicate RoundTrips(rfc: Rfc3339, t: Time) {
    rfc.parse(rfc.format(t)) == Success(t)
  }
}

=== FILE: utils.dfy ===
/** The emptiness predicate behind omitempty, and the three-result tag parser
    (utils.go). */
module Utils {
  import opened Wrappers
  import opened Strings
  import opened Times
  import opened Fields
  import opened Reflect
  import Tags

  /** isEmptyValue: lengths are empty at zero, booleans at false, integers at zero,
      pointers and interfaces at nil, times at the zero instant, a comparative time
      when its time is zero whatever its operator; every other struct, and the
      invalid value, is never empty. */
  function IsEmptyValue(v: Value): (empty: bool)
    ensures !(v.Array? || v.Struct? || v.TimeVal? || v.CompTime? || v.CompStr? || v.Invalid?) ==>
      (empty <==> IsGoZero(v))
    ensures v.Array? ==> (empty <==> v.elems == [])
    ensures empty ==> IsGoZero(v) || v.TimeVal? || v.CompTime?
    ensures (v.TimeVal? || v.CompTime?) && IsGoZero(v) ==> empty
  {
    match v
    case Str(s) => |s| == 0
    case Slice(es) => |es| == 0
    case Array(es) => |es| == 0
    case Dict(n) => n == 0
    case Bool(b) => !b
    case Int(i) => i == 0
    case Uint(u) => u == 0
    case Iface(h) => h.None?
    case Ptr(p) => p.None?
    case TimeVal(t) => IsZero(t)
    case CompTime(c) => IsZero(c.time)
    case CompStr(_) => false
    case Struct(_) => false
    case Invalid => false
  }

  /** The zero value of the kind of `v`, for the kinds whose zero value does not depend
      on a struct's shape or on a time zone. */
  function ZeroOf(v: Value): Option<Value> {
    match v
    case Str(_) => Some(Str(""))
    case Slice(_) => Some(Slice([]))
    case Dict(_) => Some(Dict(0))
    case Bool(_) => Some(Bool(false))
    case Int(_) => Some(Int(0))
    case Uint(_) => Some(Uint(0))
    case Iface(_) => Some(Iface(None))
    case Ptr(_) => Some(Ptr(None))
    case _ => None
  }

  /** For those kinds, a value is empty exactly when it is its kind's zero value. */
  lemma EmptyIsZero(v: Value)
    requires ZeroOf(v).Some?
    ensures IsEmptyValue(v) <==> v == ZeroOf(v).value
  {
  }

  /** Go's zero value of each kind: what a field holds before anything is stored in it.
      A nil slice or map is not told apart from an empty one here; `Invalid` holds no
      value at all. */
  predicate IsGoZero(v: Value) {
    match v
    case Str(s) => s == ""
    case Bool(b) => !b
    case Int(i) => i == 0
    case Uint(u) => u == 0
    case TimeVal(t) => t == Zero
    case CompTime(c) => c.operator == "" && c.time == Zero
    case CompStr(c) => c.operator == "" && c.str == ""
    case Slice(es) => es == []
    case Array(es) => forall i :: 0 <= i < |es| ==> IsGoZero(es[i])
    case Dict(n) => n == 0
    case Iface(h) => h.None?
    case Struct(r) => forall i :: 0 <= i < |r.fields| ==> IsGoZero(r.fields[i].value)
    case Ptr(p) => p.None?
    case Invalid => false
  }

  /** Where emptiness departs from the zero value: an array of zeros, every struct that
      is a zero value (one without fields among them) and a zero comparative string are
      not empty; a time in a non-UTC zone at the zero instant, and a comparative time
      with operator "=" at the zero instant (as NewComparativeTime makes), are empty
      without being zero. */
  lemma EmptyDepartsFromZero(n: nat, r: Record, m: Methods, t: Time)
    ensures var zeros := Array(seq(n + 1, _ => Int(0)));
      IsGoZero(zeros) && !IsEmptyValue(zeros)
    ensures IsGoZero(Struct(r)) ==> !IsEmptyValue(Struct(r))
    ensures IsGoZero(Struct(Record([], m)))
    ensures IsGoZero(CompStr(ComparativeString("", ""))) && !IsEmptyValue(CompStr(ComparativeString("", "")))
    ensures IsZero(t) && t.offset != 0 ==> IsEmptyValue(TimeVal(t)) && !IsGoZero(TimeVal(t))
    ensures IsZero(t) ==>
      IsEmptyValue(CompTime(ComparativeTime(Equals, t))) && !IsGoZero(CompTime(ComparativeTime(Equals, t)))
  {
  }

  /** A time, plain or comparative, is empty exactly when it is the zero instant, and
      the operator of a comparative time plays no part. */
  lemma EmptyTimes(t: Time, op: string)
    ensures IsEmptyValue(TimeVal(t)) <==> IsZero(t)
    ensures IsEmptyValue(CompTime(ComparativeTime(op, t))) <==> IsEmptyValue(TimeVal(t))
    ensures IsEmptyValue(CompTime(NewComparativeTime()))
  {
  }

  /** A parsed three-part tag: name, omitempty and comma options. */
  datatype TagOptions = TagOptions(name: string, omitEmpty: bool, comma: bool)

  const Comma: string := "comma"

  /** parseTag (utils.go): split the tag on commas; without a comma the whole tag is the
      name; otherwise the first piece is the name and each option is set when it occurs
      among the later pieces. */
  function ParseTagOptions(tag: string): (r: TagOptions)
    ensures ',' !in tag ==> r == TagOptions(tag, false, false)
    ensures ',' !in r.name && HasPrefix(tag, r.name)
    ensures ',' in tag ==> |r.name| < |tag| && tag[|r.name|] == ','
  {
    var elements := Split(tag, ',');
    if |elements| == 1 then TagOptions(tag, false, false)
    else TagOptions(elements[0], Tags.OmitEmpty in elements[1..], Comma in elements[1..])
  }

  /** A tag written as a name and comma-separated options parses to the name and to
      the options present, in any order and with any repetition. */
  lemma ParseTagOptionsOfJoin(name: string, opts: seq<string>)
    requires ',' !in name && |opts| > 0
    requires forall i :: 0 <= i < |opts| ==> ',' !in opts[i]
    ensures ParseTagOptions(Join([name] + opts, ',')) == TagOptions(name, Tags.OmitEmpty in opts, Comma in opts)
  {
    var pieces := [name] + opts;
    forall i | 0 <= i < |pieces| ensures ',' !in pieces[i] {
      if i > 0 { assert pieces[i] == opts[i - 1]; }
    }
    SplitJoin(pieces, ',');
    var tag := Join(pieces, ',');
    assert Split(tag, ',') == pieces;
    assert pieces[0] == name && pieces[1..] == opts;
    assert |Split(tag, ',')| != 1;
  }

  /** The order of the options does not matter. */
  lemma ParseTagOptionsOrderFree(name: string, opts: seq<string>, opts': seq<string>)
    requires ',' !in name && |opts| > 0 && multiset(opts) == multiset(opts')
    requires forall i :: 0 <= i < |opts| ==> ',' !in opts[i]
    ensures ParseTagOptions(Join([name] + opts, ',')) == ParseTagOptions(Join([name] + opts', ','))
  {
    assert |opts'| == |multiset(opts')| == |opts|;
    forall i | 0 <= i < |opts'| ensures ',' !in opts'[i] {
      assert opts'[i] in multiset(opts);
    }
    ParseTagOptionsOfJoin(name, opts);
    ParseTagOptionsOfJoin(name, opts');
    assert Tags.OmitEmpty in opts <==> Tags.OmitEmpty in multiset(opts);
    assert Tags.OmitEmpty in opts' <==> Tags.OmitEmpty in multiset(opts');
    assert Comma in opts <==> Comma in multiset(opts);
    assert Comma in opts' <==> Comma in multiset(opts');
  }

  lemma OptionsCommaFree()
    ensures ',' !in Tags.OmitEmpty && ',' !in Comma
  {
  }

  /** Where the two tag parsers agree: always on the name; on omitempty whenever the
      tag has at most one comma; and the two-result parser's omitempty implies the
      three-result one's. */
  lemma ParseTagsAgree(tag: string)
    ensures Tags.ParseTag(tag).name == ParseTagOptions(tag).name
    ensures Tags.ParseTag(tag).omitEmpty ==> ParseTagOptions(tag).omitEmpty
    ensures ',' !in tag ==> Tags.ParseTag(tag).omitEmpty == ParseTagOptions(tag).omitEmpty
    ensures ',' in tag && ',' !in tag[|Tags.ParseTag(tag).name| + 1..] ==>
      Tags.ParseTag(tag).omitEmpty == ParseTagOptions(tag).omitEmpty
  {
    if ',' in tag {
      var i := IndexOf(tag, ',').value;
      var rest := tag[i + 1..];
      var elements := Split(tag, ',');
      assert elements == [tag[..i]] + Split(rest, ',');
      var three := ParseTagOptions(tag);
      assert three.omitEmpty == (Tags.OmitEmpty in elements[1..]);
      if Tags.ParseTag(tag).omitEmpty {
        OptionsCommaFree();
        assert elements[1..][0] == Tags.OmitEmpty;
      }
      if ',' !in rest {
        assert elements[1..] == [rest];
      }
    }
  }

  /** With both options the parsers disagree: only the three-result one sees omitempty
      (for instance on "name,omitempty,comma"). */
  lemma ParseTagsDisagree(name: string)
    requires ',' !in name
    ensures !Tags.ParseTag(name + "," + Tags.OmitEmpty + "," + Comma).omitEmpty
    ensures ParseTagOptions(name + "," + Tags.OmitEmpty + "," + Comma) == TagOptions(name, true, true)
  {
    var t := name + "," + Tags.OmitEmpty + "," + Comma;
    var two := Tags.ParseTag(t);
    assert t[|name|] == ',';
    assert two.name == name;
    assert t[|name| + 1..] == Tags.OmitEmpty + "," + Comma;
    assert |t[|name| + 1..]| != |Tags.OmitEmpty|;
    OptionsCommaFree();
    JoinOptions(name);
    ParseTagOptionsOfJoin(name, [Tags.OmitEmpty, Comma]);
  }

  lemma JoinOptions(name: string)
    ensures Join([name] + [Tags.OmitEmpty, Comma], ',') == name + "," + Tags.OmitEmpty + "," + Comma
  {
    var pieces := [name] + [Tags.OmitEmpty, Comma];
    assert pieces[1..] == [Tags.OmitEmpty, Comma] && pieces[1..][1..] == [Comma];
    var tail := Join(pieces[1..], ',');
    assert Join(pieces[1..][1..], ',') == Comma;
    assert tail == Tags.OmitEmpty + [','] + Comma;
    assert Join(pieces, ',') == name + [','] + tail;
  }
}

=== FILE: wrappers.dfy ===
/** Optional values and results, shared by the rest of the model. */
module Wrappers {

  /** A value that may be absent (Go's nil, or a "not found" index). */
  datatype Option<+T> = None | Some(value: T)

  /** The result of an operation that can fail with an error of type E. */
  datatype Result<+R, +E> = Success(value: R) | Failure(error: E)
}
